=== FILE: README.md ===
# go-cache in Dafny

A model of the key-value cache library go-cache. The library offers one
seven-operation `Cache` interface (Set, Get, Delete, Exists, Expire, TTL,
Close) over three backends. This project models the two local backends and
the composite that chains them, and proves what they promise:

- **MemoryCache** (`memory_cache.dfy`, module `Memory`): a map from key to
  `(value, expiration)`. An entry expires lazily on read. A periodic cleanup
  also sweeps expired entries; here it is the pure step `Sweep`, and
  `Cleanup` is the same sweep as a loop over the keys.
- **FileCache** (`file_cache.dfy`, module `File`): one file per key. The
  directory is a map from file name to the decoded content, which is either
  `Valid(entry)` or `Corrupt`. File names are the `%x` hex encoding of the
  key plus `.json` (`file_names.dfy`, module `FileNames`). The encoding is
  proved injective and free of path separators.
- **MultiCache** (`multi_cache.dfy`, module `Multi`): an ordered sequence of
  tiers. Set, Delete, Expire and Close fan out to every tier and report nil
  whatever the tiers say. Get, Exists and TTL probe the tiers in order. A Get
  hit at index *i* is copied into every tier before *i* with ttl 0, so the
  copy never expires. A tier is a memory or file backend together with the
  set of calls that currently fail on it. A failing call answers a connection
  error and changes nothing. So a tier can be offline (every call fails) or
  refuse only new values (only Set fails), and the environment may change this between
  calls. The model can therefore show the fan-out's consistency gap: a
  refused Set or Delete is swallowed, and Get then serves the old value
  (`Multi.SwallowedSetServesStale`, `Multi.SwallowedDeleteServesDeleted`).
- **RedisCache** (`remote_cache.dfy`, module `Remote`): only the adapter's
  own logic. Get's "no such key" reply becomes KeyNotFound and Exists turns a
  key count into a boolean. TTL's `-1`/`-2` sentinels are translated, and
  Expire's "not applied" becomes KeyNotFound. A client error passes through.

Shared vocabulary is in `cache_types.dfy` (module `CacheTypes`): the error
kinds of `errors.go`, Go's `error` and `(T, error)` returns as `Status` and
`Result`, and `Answer`/`Updated`, which pair a result with the backend's
new state. Every operation takes the current instant `now` as an argument.
Expiration `Never` stands for Go's zero `time.Time`.

The File module also proves a refinement. `File.Represents(f, m)` says that
directory `f` stores exactly the entries of memory store `m`. Set, Delete
and Expire preserve this relation. Set and Delete always answer nil on both
backends. Expire answers the same status on every key whose file is not
corrupt; on a corrupt file both backends fail, with a decode error and
KeyNotFound respectively. Exists gives the same answer on both backends for
every key, and Get and TTL do so on every key whose file is not corrupt.

Some behaviours of the code worth knowing:

- Liveness: the backends reject an entry only when `now` is strictly after
  its deadline (`time.Now().After`, `memory_cache.go:63`). So the deadline
  instant itself is still live (`CacheTypes.Live`).
- Corrupt files: of the reads, only `Exists` deletes a file that does not
  decode (`file_cache.go:113-118`). `Get`, `TTL` and `Expire` return the
  decode error and keep the file. `File.CorruptFileHealedOnlyByExists`
  states the difference.
- File names: a file name is the hex encoding of the key's bytes
  (`file_cache.go:207-212`). So two keys cannot share a file
  (`FileNames.FileNameInjective`).
- Expire: the memory and file backends check only that the entry is stored,
  not that it is live. An expired entry that has not been removed yet is
  revived (`Memory.ExpireRevives`, `File.ExpireRevives`).

## Model

| member | source | states |
|---|---|---|
| CacheTypes.Live | memory_cache.go:63 | an entry is live when it has no deadline or `now` is not after the deadline; the deadline instant is live |
| CacheTypes.ExpiryIsFinal | memory_cache.go:63 | an entry not live at now stays not live at every later instant |
| CacheTypes.ExpirationFor | memory_cache.go:39-42 | a positive ttl gives a deadline exactly ttl after now; any other ttl gives "never expires" |
| CacheTypes.TtlOf | memory_cache.go:126-136 | an entry's TTL is KeyNotFound exactly when it is not live, -1 exactly when it has no deadline, otherwise a non-negative time that reaches the deadline |
| Memory.Set | memory_cache.go:35-50 | the key now holds the value with deadline now+ttl (ttl > 0) or none; every other key keeps its entry |
| Memory.Get | memory_cache.go:53-68 | succeeds exactly when the key is stored and live, with the stored value; otherwise KeyNotFound; returns no new state, so it cannot write |
| Memory.Delete | memory_cache.go:71-77 | removes exactly the key, keeps every other entry, and changes nothing when the key is absent |
| Memory.Exists | memory_cache.go:80-95 | never fails; true only for a stored, live entry, and exactly when Get at the same instant would succeed |
| Memory.Expire | memory_cache.go:98-114 | KeyNotFound exactly when the key is not stored, and nil exactly when it is (liveness is not checked); on success keeps the value, sets only the new expiration, and keeps other keys |
| Memory.TTL | memory_cache.go:117-137 | succeeds exactly when Get does; -1 exactly for a never-expiring entry; otherwise a non-negative remaining time that reaches the deadline |
| Memory.Close | memory_cache.go:140-143 | returns nil and leaves the stored entries as they are |
| Memory.Sweep | memory_cache.go:153-160 | keeps exactly the entries still live at now, each unchanged |
| Memory.Cleanup | memory_cache.go:153-160 | the loop that deletes expired entries one key at a time ends with exactly the live entries, i.e. with Sweep's result |
| Memory.SetThenGet | memory_cache.go:35-68 | after Set, Get and Exists succeed with the value at any instant until a positive ttl has elapsed, and forever when ttl <= 0 |
| Memory.SetThenExpires | memory_cache.go:40-64 | once a positive ttl has passed, Get fails with KeyNotFound, Exists is false and TTL fails |
| Memory.NeverExpiresTtl | memory_cache.go:131-134 | after Set with ttl <= 0, TTL answers -1 at every later instant |
| Memory.SetOverwrites | memory_cache.go:44-47 | a second Set of the same key replaces the first completely |
| Memory.DeleteThenGet | memory_cache.go:71-77 | after Delete, Get fails and Exists is false; a second Delete changes nothing |
| Memory.ExpireRevives | memory_cache.go:98-114 | an expired entry still in the map is revived by Expire with a positive ttl and reads as its old value again |
| Memory.SweepIdempotent | memory_cache.go:153-160 | sweeping twice at the same instant equals sweeping once |
| Memory.SweepPreservesReads | memory_cache.go:153-160 | a sweep at now changes no answer of Get, Exists or TTL at now or later |
| Memory.SweepEndsRevival | memory_cache.go:153-160 | a sweep does change Expire: an expired entry that Expire would revive is gone afterwards, and Expire reports KeyNotFound |
| Memory.DeleteDeadInvisible | memory_cache.go:156-157 | deleting an entry that is not live at now changes no read of any key at now or later |
| FileNames.FileName | file_cache.go:207-212 | a key's file name is two lower-case hex digits per key byte followed by ".json" |
| FileNames.HexEncode | file_cache.go:207-212 | byte i is written at positions 2i and 2i+1 as its high and then its low nibble in lower-case hex, as `%x` does |
| FileNames.FileNameExample | file_cache.go:210 | the key bytes 0x1f 0xa0 name the file "1fa0.json" |
| FileNames.DecodeEncode | file_cache.go:207-212 | hex decoding recovers the bytes from their encoding |
| FileNames.EncodeDecode | file_cache.go:207-212 | any string that decodes is the encoding of the bytes it decodes to |
| FileNames.FileNameShape | file_cache.go:207-212 | a key's file name contains no '/' or '\\', so it stays in the cache directory |
| FileNames.ParseFileName | file_cache.go:207-212 | a file name can be parsed back into its key, and only names produced from that key parse to it |
| FileNames.FileNameInjective | file_cache.go:207-212 | distinct keys never share a file |
| File.Remove | file_cache.go:79 | deleting a key's file removes that name only, and every other key keeps its stored entry |
| File.Set | file_cache.go:36-54 | the key's file decodes to the value with deadline now+ttl (ttl > 0) or none, whatever it held before; all other files are unchanged |
| File.Get | file_cache.go:57-84 | missing file: KeyNotFound, nothing changes; corrupt file: decode error, file kept; expired entry: KeyNotFound, file removed; live entry: its value, nothing changes |
| File.Delete | file_cache.go:87-96 | the key's file is gone afterwards, only it; a missing file is not an error |
| File.Exists | file_cache.go:99-128 | never fails; true exactly for a live decodable entry; a corrupt or expired file is removed; otherwise nothing changes |
| File.Expire | file_cache.go:131-163 | missing file: KeyNotFound; corrupt file: decode error, file kept; any decodable file, even expired: value kept, only the expiration rewritten, other files unchanged |
| File.TTL | file_cache.go:166-198 | missing: KeyNotFound; corrupt: decode error; expired: KeyNotFound and the file removed; succeeds exactly when Get does; -1 exactly for a never-expiring entry; otherwise a non-negative remaining time |
| File.Close | file_cache.go:201-204 | returns nil and leaves the directory as it is |
| File.OtherKeysUntouched | file_cache.go:207-212 | Set, Delete and Expire of one key never change the stored entry of another key |
| File.SetThenGet | file_cache.go:36-84 | Get right after Set returns the exact string, whatever the file held before |
| File.DeleteThenGet | file_cache.go:87-96 | after Delete, Get reports KeyNotFound and Exists false |
| File.CorruptFileHealedOnlyByExists | file_cache.go:57-128 | on a corrupt file Get keeps failing with a decode error; Exists answers false and deletes the file, after which Get reports KeyNotFound |
| File.ExpireRevives | file_cache.go:131-163 | an expired file that no read has removed is revived by Expire and reads as its old value again |
| File.EmptyRepresentsEmpty | file_cache.go:23-33 | a new, empty directory stores the same entries as an empty memory cache |
| File.ReadsAgree | file_cache.go:57-198 | when a directory stores the entries of a memory store, Exists agrees with the memory backend on every key, and Get and TTL agree on every key whose file is not corrupt |
| File.SetAgrees | file_cache.go:36-54 | Set keeps a directory and a memory store in step |
| File.DeleteAgrees | file_cache.go:87-96 | Delete keeps a directory and a memory store in step |
| File.ExpireAgrees | file_cache.go:131-163 | Expire keeps a directory and a memory store in step; it answers the same status on a key whose file is not corrupt, and on a corrupt file both backends fail |
| File.ReadsKeepRepresentation | file_cache.go:57-198 | what a read deletes lazily is only an entry that is not live at now, which the memory store may drop too |
| Multi.TierSet | cache_interface.go:10 | a tier refusing Set answers a connection error and is unchanged; otherwise it then holds the value with its new expiration; other keys keep their entries either way |
| Multi.TierGet | cache_interface.go:13 | succeeds exactly when the tier accepts Get and holds a live entry, with that entry's value and no change; a refused Get is a connection error; a memory tier never changes, a file tier loses at most the key's own file, and only when it holds no live entry |
| Multi.TierDelete | cache_interface.go:16 | a tier refusing Delete answers a connection error and is unchanged; otherwise it holds no entry for the key afterwards; every other key keeps its entry |
| Multi.TierExists | cache_interface.go:19 | a tier accepting Exists answers whether it holds a live entry; a refusing one answers a connection error and is unchanged; it changes at most the key's own file, and only when that holds no live entry |
| Multi.TierExpire | cache_interface.go:22 | nil exactly when the tier accepts Expire and holds an entry, which then keeps its value with the new expiration; any failure leaves the tier unchanged; every other key keeps its entry |
| Multi.TierTTL | cache_interface.go:25 | succeeds exactly when the tier accepts TTL and holds a live entry; -1 exactly for an entry without deadline, otherwise the non-negative time left to the deadline; it changes at most the key's own file, and only when that holds no live entry |
| Multi.TierClose | cache_interface.go:28 | closing leaves the tier as it is and answers nil exactly when the tier accepts Close |
| Multi.ProbeUntil | multi_cache.go:32-91 | the probe loop of Get, Exists and TTL leaves one state per tier; where it stops and what it answers is stated by ProbeUntilFindsFirst |
| Multi.FanOut | multi_cache.go:20-29 | every tier, in order, receives the operation; the sequence keeps its length |
| Multi.ProbeUntilFindsFirst | multi_cache.go:32-91 | probing stops at the first tier whose answer is accepted and returns that answer; earlier tiers are probed, later ones untouched; with no such tier the miss answer comes back and every tier is probed |
| Multi.PromoteAll | multi_cache.go:37-42 | every tier given to it receives Set(key, value, 0) |
| Multi.Set | multi_cache.go:20-29 | every tier receives Set in order; the result is nil whatever the tiers answered |
| Multi.Get | multi_cache.go:32-47 | KeyNotFound exactly when no tier's Get succeeds, every tier then probed; otherwise the first hit's value, every earlier tier probed and then given Set(key, value, 0), the hit tier as its Get left it, and later tiers untouched |
| Multi.Promotion | multi_cache.go:37-42 | from the probe's outcome, writes the hit value into exactly the tiers before the hit |
| Multi.Delete | multi_cache.go:50-58 | every tier receives Delete; the result is nil |
| Multi.Exists | multi_cache.go:61-69 | never fails; true exactly when some tier answers (true, nil); probing stops at the first such tier, and a tier error counts as false |
| Multi.Expire | multi_cache.go:72-80 | every tier receives Expire; the result is nil |
| Multi.TTL | multi_cache.go:83-91 | the answer of the first tier that answers without error, tiers after it untouched; KeyNotFound when every tier fails |
| Multi.Close | multi_cache.go:94-102 | closes every tier and returns nil even when a tier fails to close |
| Multi.TierSetThenRead | multi_cache.go:37-42 | a tier accepting Set and Get serves a value just Set into it until a positive ttl elapses; with ttl 0 it serves it forever, with TTL -1 |
| Multi.TierExistsMatchesGet | multi_cache.go:61-69 | for a tier whose Exists and Get both answer or both fail, Exists answers (true, nil) exactly when Get succeeds |
| Multi.SetThenGet | multi_cache.go:20-47 | Set then Get through the composite returns the value when every tier up to one that answers Get accepted the Set |
| Multi.SetSwallowsFailures | multi_cache.go:20-29 | when every tier refuses Set, Set still reports nil and nothing is written |
| Multi.SetOverwrites | multi_cache.go:20-47 | after two Sets of one key through the composite, Get returns the second value, under the condition of SetThenGet |
| Multi.SwallowedSetServesStale | multi_cache.go:20-47 | when the first tier refuses Set but answers Get, Set reports nil and Get then returns that tier's old answer |
| Multi.SetRefusingTierServesStale | multi_cache.go:20-47 | an instance: a memory tier holding "1" starts refusing Set; after Set "2" reports nil, Get answers "1" |
| Multi.DeleteThenGet | multi_cache.go:32-58 | after Delete through the composite, Get misses when every tier accepted the Delete or fails Get |
| Multi.SwallowedDeleteServesDeleted | multi_cache.go:32-58 | when the first tier refuses Delete but answers Get, Delete reports nil and Get still finds the key there |
| Multi.ExistsAgreesWithGet | multi_cache.go:32-69 | the composite Exists is true exactly when the composite Get succeeds, if no tier fails one of the two calls but not the other |
| Multi.PromotedCopiesNeverExpire | multi_cache.go:37-42 | after a hit at index i, every tier before i that accepts Set and Get serves the value at any later instant, with TTL -1 |
| Multi.HitInFirstTierWritesNothing | multi_cache.go:32-43 | a hit in tier 0 leaves every other tier as it was |
| Multi.ServedBySlowTierAndRepopulated | multi_cache.go:32-47 | with two healthy tiers, after Set through [fast, slow] and a Delete on fast only, Get still returns the value from slow, and fast then holds a copy that never expires |
| Multi.TierExpireThenTTL | multi_cache.go:72-91 | a tier accepting Expire and TTL answers TTL afterwards exactly when it held the key, with the new ttl or -1 |
| Multi.ExpireThenTTL | multi_cache.go:72-91 | when every tier accepts Expire and TTL and some tier holds the key, TTL through the composite right after Expire answers the new ttl, or -1 for a ttl <= 0 |
| Multi.ExpireOfAbsentKeySucceeds | multi_cache.go:72-80 | Expire through the composite reports nil for a key no tier holds, although each memory tier on its own reports KeyNotFound |
| Remote.GetReply | cache.go:39-45 | succeeds exactly with a value reply, returning it; "no such key" becomes KeyNotFound; a client error passes through |
| Remote.ExistsReply | cache.go:53-59 | true exactly when the server counts at least one key; a client error passes through |
| Remote.TtlReply | cache.go:74-91 | the server's -2 becomes KeyNotFound, a client error passes through, and every other reply (-1 included) is passed on as the TTL |
| Remote.ExpireReply | cache.go:62-71 | nil exactly when the server applied the expiry, KeyNotFound when it did not, and a client error passes through |
| Remote.ReadsMatchMemory | cache.go:39-91 | against a server that keeps the entries of a memory store, the adapter's Get, Exists and TTL equal the memory backend's |
| Remote.ExpireReplyMatchesMemory | cache.go:62-71 | for a live or absent key, the adapter's Expire status equals the memory backend's |

## Left out

- Locks, the cleanup goroutine, its 10-second ticker and the stop channel: every
  operation runs atomically on an immutable state, and the sweep is a pure step
  the caller applies. Closing a MemoryCache twice panics in Go; that is not modelled.
- The clock: each operation receives one instant `now`. The source reads the clock
  again in `time.Until`, so its TTL can be a little smaller than `deadline - now`.
  The source can even return a negative TTL; the model cannot.
- Integer widths: time and durations are unbounded integers, so the saturation of
  `time.Time.Add` and the 64-bit range of `time.Duration` are not modelled.
- The file system: the directory path, `os.MkdirAll`, and failures of
  `os.Stat`, `os.ReadFile`, `os.WriteFile` and `os.Remove` other than a missing
  file are not modelled. The file Set, Delete and Close therefore always succeed.
- The JSON and RFC 3339 encoding of a file's content: a file is its decoded
  content, `Valid(entry)` or `Corrupt`.
- Value normalisation: the memory and file backends type-assert the value to a
  string (`memory_cache.go:45`, `file_cache.go:43`), and a non-string value
  panics there. RedisCache hands the value to the client as it is, and the
  composite hands it to its tiers. Values are strings, and the `ToString`
  helper in lib.go is not part of this model.
- File.SetThenGet: values are Dafny strings, so they are always valid UTF-8. A Go
  string may hold any bytes, and `json.Marshal` replaces invalid UTF-8 with U+FFFD,
  so a file backend returns such a value altered. The lemma covers valid UTF-8 values only.
- File.SetAgrees: for the same reason, the two backends agree only on valid UTF-8
  values; on other byte strings the memory backend keeps the bytes and the file
  backend does not.
- File.ReadsAgree: as for File.SetAgrees, only for valid UTF-8 values.
- The Redis client and server: Set and Delete on RedisCache return the client's
  error unchanged, and the key prefix is not modelled. The server is idealised
  (`Remote.ServerGet` and the functions after it).
- Remote.ReadsMatchMemory: the idealised server answers TTL in the model's exact
  unit. Redis answers in whole, rounded seconds, so a real TTL reply can differ
  from the memory backend's by up to a second.
- Nested composites and Redis tiers: a tier is a memory or a file backend. A
  MultiCache or a RedisCache inside a MultiCache is not modelled; a remote tier's
  behaviour is approximated by the calls that fail on a tier.
- Shared storage between tiers: each tier is an independent value. In Go the
  composite holds references, so the same backend listed twice, or two file
  caches over one directory, share their entries: a write through one tier is then
  visible through the other. Such configurations are not modelled, and lemmas such
  as `Multi.ServedBySlowTierAndRepopulated` and `Multi.SwallowedSetServesStale`
  assume tiers that share no storage.
- Tier failures: a refused call answers `Connection` and changes nothing. A real
  backend could fail part-way or return its own error value. The composite discards
  the error of every fan-out call either way.
- Key prefixes, the factory and configuration (`factory.go`), and the demo
  programs are not part of this model.

=== FILE: cache_types.dfy ===
/** Shared vocabulary of the cache backends: keys, values, instants,
    expirations, the error kinds of errors.go and the result shapes of the
    seven-operation Cache interface (cache_interface.go).

    Every operation receives the current instant `now` explicitly instead of
    reading a clock, and returns its new state instead of mutating it. */
module CacheTypes {

  /** Instants and durations share one integer unit (Go's time.Duration,
      nanoseconds). Integers are unbounded: the 64-bit range of Go's
      time.Time and time.Duration is not modelled. */
  type Time = int
  type Duration = int

  newtype uint8 = x: int | 0 <= x < 256

  /** A Go string is a sequence of bytes; keys are compared and hex-encoded
      byte by byte. */
  type Key = seq<uint8>

  /** The memory and file backends type-assert the stored value to a Go
      string. */
  type Value = string

  /** `Never` is Go's zero time.Time, which the backends use to mean
      "this entry does not expire". */
  datatype Expiration = Never | At(deadline: Time)

  /** The backends reject an entry only when it has a deadline and `now`
      is strictly after it, so the deadline instant itself is still live. */
  predicate Live(exp: Expiration, now: Time)
  {
    exp.Never? || now <= exp.deadline
  }

  /** Expiry is final: an entry that is not live at `now` is not live at
      any later instant. */
  lemma ExpiryIsFinal(exp: Expiration, now: Time, later: Time)
    requires now <= later
    ensures !Live(exp, now) ==> !Live(exp, later)
  {
  }

  /** The expiration Set and Expire record for a time-to-live: a positive
      ttl counts from `now`, any other ttl means "never expires". */
  function ExpirationFor(now: Time, ttl: Duration): (e: Expiration)
    ensures e.Never? <==> ttl <= 0
    ensures e.At? ==> e.deadline - now == ttl
  {
    if ttl > 0 then At(now + ttl) else Never
  }

  /** The record every backend stores per key (cacheItem, fileItem). */
  datatype Entry = Entry(value: Value, expiration: Expiration)

  /** The sentinel TTL answers for an entry that never expires. */
  const NoExpiry: Duration := -1

  /** ErrKeyNotFound, ErrConnection, ErrInvalidParameter, plus the opaque
      error a file backend returns when a file does not decode. */
  datatype Error = KeyNotFound | Connection | InvalidParameter | IOError

  /** A Go `error` return: nil or an error. */
  datatype Status = Nil | Fail(error: Error)

  /** A Go `(T, error)` return. */
  datatype Result<+T> = Ok(value: T) | Err(error: Error)

  datatype Option<+T> = None | Some(value: T)

  /** A read's answer together with the backend state after the read
      (file reads may delete an expired or corrupt file). */
  datatype Answer<+T, +S> = Answer(result: Result<T>, state: S)

  /** A write's status together with the backend state after the write. */
  datatype Updated<+S> = Updated(status: Status, state: S)

  /** What TTL answers for a stored entry: KeyNotFound once the entry is no
      longer live, the sentinel for an entry without deadline, and the time
      left until the deadline otherwise. */
  function TtlOf(e: Entry, now: Time): (r: Result<Duration>)
    ensures r.Err? <==> !Live(e.expiration, now)
    ensures r.Err? ==> r.error == KeyNotFound
    ensures r == Ok(NoExpiry) <==> e.expiration.Never?
    ensures r.Ok? && e.expiration.At? ==> r.value >= 0 && now + r.value == e.expiration.deadline
  {
    if !Live(e.expiration, now) then Err(KeyNotFound)
    else if e.expiration.Never? then Ok(NoExpiry)
    else Ok(e.expiration.deadline - now)
  }
}

=== FILE: file_cache.dfy ===
/** The file-system backend (FileCache): one file per key in a directory.
    The directory is a map from file name to what decoding the file yields:
    a stored entry, or `Corrupt` when the JSON does not decode. Failures of
    the file system calls themselves are not modelled. */
module File {
  import opened CacheTypes
  import opened FileNames
  import Memory

  datatype Content = Valid(entry: Entry) | Corrupt

  datatype FileCache = FileCache(files: map<string, Content>)

  /** A freshly created directory holds no files. */
  const Empty: FileCache := FileCache(map[])

  /** The decoded entry stored for `key`, if its file exists and decodes. */
  function Stored(f: FileCache, key: Key): Option<Entry>
  {
    var name := FileName(key);
    if name in f.files && f.files[name].Valid? then Some(f.files[name].entry) else None
  }

  /** True when the file of `key` exists but does not decode. */
  predicate IsCorrupt(f: FileCache, key: Key)
  {
    FileName(key) in f.files && f.files[FileName(key)].Corrupt?
  }

  /** Every file other than `name` is as before. */
  predicate OthersUnchanged(f: FileCache, f': FileCache, name: string)
  {
    && f'.files.Keys - {name} == f.files.Keys - {name}
    && forall n :: n in f.files && n != name ==> n in f'.files && f'.files[n] == f.files[n]
  }

  /** The key's file with the given name deleted. */
  function Remove(f: FileCache, key: Key): (f': FileCache)
    ensures FileName(key) !in f'.files
    ensures OthersUnchanged(f, f', FileName(key))
    ensures forall k :: k != key ==> Stored(f', k) == Stored(f, k)
  {
    OnlyKeyOfItsName(key);
    FileCache(f.files - {FileName(key)})
  }

  /** Set writes a fresh file, replacing a valid or corrupt one. */
  function Set(f: FileCache, key: Key, value: Value, ttl: Duration, now: Time): (f': FileCache)
    ensures Stored(f', key) == Some(Entry(value, if ttl > 0 then At(now + ttl) else Never))
    ensures OthersUnchanged(f, f', FileName(key))
    ensures forall k :: k != key ==> Stored(f', k) == Stored(f, k)
  {
    OnlyKeyOfItsName(key);
    FileCache(f.files[FileName(key) := Valid(Entry(value, ExpirationFor(now, ttl)))])
  }

  /** Get: a missing file is KeyNotFound; a corrupt file is a decode error
      and stays; an expired entry is KeyNotFound and its file is deleted. */
  function Get(f: FileCache, key: Key, now: Time): (r: Answer<Value, FileCache>)
    ensures FileName(key) !in f.files ==> r == Answer(Err(KeyNotFound), f)
    ensures IsCorrupt(f, key) ==> r == Answer(Err(IOError), f)
    ensures Stored(f, key).Some? && !Live(Stored(f, key).value.expiration, now) ==>
              r == Answer(Err(KeyNotFound), Remove(f, key))
    ensures r.result.Ok? <==> Stored(f, key).Some? && Live(Stored(f, key).value.expiration, now)
    ensures r.result.Ok? ==> r.result.value == Stored(f, key).value.value && r.state == f
  {
    var name := FileName(key);
    if name !in f.files then Answer(Err(KeyNotFound), f)
    else match f.files[name]
      case Corrupt => Answer(Err(IOError), f)
      case Valid(e) =>
        if !Live(e.expiration, now) then Answer(Err(KeyNotFound), Remove(f, key))
        else Answer(Ok(e.value), f)
  }

  /** Delete of a missing file succeeds; otherwise only that file goes. */
  function Delete(f: FileCache, key: Key): (f': FileCache)
    ensures FileName(key) !in f'.files
    ensures OthersUnchanged(f, f', FileName(key))
    ensures FileName(key) !in f.files ==> f' == f
    ensures forall k :: k != key ==> Stored(f', k) == Stored(f, k)
  {
    if FileName(key) !in f.files then f else Remove(f, key)
  }

  /** Exists never fails. It is the one read that heals a corrupt file:
      the file is deleted and the answer is false. */
  function Exists(f: FileCache, key: Key, now: Time): (r: Answer<bool, FileCache>)
    ensures r.result.Ok?
    ensures r.result.value <==> Stored(f, key).Some? && Live(Stored(f, key).value.expiration, now)
    ensures r.result.value || FileName(key) !in f.files ==> r.state == f
    ensures !r.result.value && FileName(key) in f.files ==> r.state == Remove(f, key)
  {
    var name := FileName(key);
    if name !in f.files then Answer(Ok(false), f)
    else match f.files[name]
      case Corrupt => Answer(Ok(false), Remove(f, key))
      case Valid(e) =>
        if !Live(e.expiration, now) then Answer(Ok(false), Remove(f, key))
        else Answer(Ok(true), f)
  }

  /** Expire rewrites the expiration of any decodable file, even an expired
      one, and keeps its value; a corrupt file is a decode error. */
  function Expire(f: FileCache, key: Key, ttl: Duration, now: Time): (r: Updated<FileCache>)
    ensures FileName(key) !in f.files ==> r == Updated(Fail(KeyNotFound), f)
    ensures IsCorrupt(f, key) ==> r == Updated(Fail(IOError), f)
    ensures r.status == Nil <==> Stored(f, key).Some?
    ensures Stored(f, key).Some? ==>
              && Stored(r.state, key) == Some(Entry(Stored(f, key).value.value,
                                                   if ttl > 0 then At(now + ttl) else Never))
              && OthersUnchanged(f, r.state, FileName(key))
    ensures r.status != Nil ==> r.state == f
    ensures forall k :: k != key ==> Stored(r.state, k) == Stored(f, k)
  {
    OnlyKeyOfItsName(key);
    var name := FileName(key);
    if name !in f.files then Updated(Fail(KeyNotFound), f)
    else match f.files[name]
      case Corrupt => Updated(Fail(IOError), f)
      case Valid(e) => Updated(Nil, FileCache(f.files[name := Valid(Entry(e.value, ExpirationFor(now, ttl)))]))
  }

  /** TTL: like Get on missing, corrupt and expired files; the -1 sentinel
      for an entry without deadline, the time left otherwise. */
  function TTL(f: FileCache, key: Key, now: Time): (r: Answer<Duration, FileCache>)
    ensures FileName(key) !in f.files ==> r == Answer(Err(KeyNotFound), f)
    ensures IsCorrupt(f, key) ==> r == Answer(Err(IOError), f)
    ensures Stored(f, key).Some? && !Live(Stored(f, key).value.expiration, now) ==>
              r == Answer(Err(KeyNotFound), Remove(f, key))
    ensures r.result.Ok? <==> Get(f, key, now).result.Ok?
    ensures r.result.Ok? ==> r.state == f
    ensures r.result == Ok(NoExpiry) <==> Stored(f, key).Some? && Stored(f, key).value.expiration.Never?
    ensures r.result.Ok? && r.result.value != NoExpiry ==>
              r.result.value >= 0 && Stored(f, key).value.expiration == At(now + r.result.value)
  {
    var name := FileName(key);
    if name !in f.files then Answer(Err(KeyNotFound), f)
    else match f.files[name]
      case Corrupt => Answer(Err(IOError), f)
      case Valid(e) =>
        var t := TtlOf(e, now);
        if t.Err? then Answer(t, Remove(f, key)) else Answer(t, f)
  }

  /** Close has nothing to release. */
  function Close(f: FileCache): (r: Updated<FileCache>)
    ensures r.status == Nil && r.state.files == f.files
  {
    Updated(Nil, f)
  }

  // ---------------------------------------------------------------------
  // Properties relating several operations
  // ---------------------------------------------------------------------

  /** The file of one key is untouched by writes to another key. */
  lemma OtherKeysUntouched(f: FileCache, key: Key, other: Key, value: Value, ttl: Duration, now: Time)
    requires other != key
    ensures Stored(Set(f, key, value, ttl, now), other) == Stored(f, other)
    ensures Stored(Delete(f, key), other) == Stored(f, other)
    ensures Stored(Expire(f, key, ttl, now).state, other) == Stored(f, other)
  {
  }

  /** Set then Get at the same instant returns the exact string, whatever
      it looks like and whatever the file held before. */
  lemma SetThenGet(f: FileCache, key: Key, value: Value, ttl: Duration, now: Time)
    ensures Get(Set(f, key, value, ttl, now), key, now).result == Ok(value)
  {
  }

  /** After Delete, Get reports KeyNotFound and Exists false. */
  lemma DeleteThenGet(f: FileCache, key: Key, now: Time)
    ensures Get(Delete(f, key), key, now).result == Err(KeyNotFound)
    ensures Exists(Delete(f, key), key, now).result == Ok(false)
  {
  }

  /** Corruption: Get reports a decode error and keeps the file; Exists
      deletes it, after which Get reports KeyNotFound. */
  lemma CorruptFileHealedOnlyByExists(f: FileCache, key: Key, now: Time)
    requires IsCorrupt(f, key)
    ensures Get(f, key, now).result == Err(IOError)
    ensures Get(Get(f, key, now).state, key, now).result == Err(IOError)
    ensures Exists(f, key, now).result == Ok(false)
    ensures Get(Exists(f, key, now).state, key, now).result == Err(KeyNotFound)
  {
  }

  /** Expire revives an expired file that no read has deleted yet. */
  lemma ExpireRevives(f: FileCache, key: Key, ttl: Duration, now: Time)
    requires Stored(f, key).Some? && !Live(Stored(f, key).value.expiration, now)
    ensures Get(f, key, now).result == Err(KeyNotFound)
    ensures Expire(f, key, ttl, now).status == Nil
    ensures Get(Expire(f, key, ttl, now).state, key, now).result == Ok(Stored(f, key).value.value)
  {
  }

  // ---------------------------------------------------------------------
  // The file backend refines the memory backend
  // ---------------------------------------------------------------------

  /** The directory `f` holds exactly the entries of the memory store `m`,
      under their hex-encoded names (corrupt files hold no entry). */
  ghost predicate Represents(f: FileCache, m: Memory.MemoryCache)
  {
    forall k :: Stored(f, k) == (if k in m.data then Some(m.data[k]) else None)
  }

  lemma EmptyRepresentsEmpty()
    ensures Represents(Empty, Memory.Empty)
  {
  }

  /** On a key whose file is not corrupt, the reads of both backends give
      the same answers; Exists agrees even on a corrupt file. */
  lemma ReadsAgree(f: FileCache, m: Memory.MemoryCache, key: Key, now: Time)
    requires Represents(f, m)
    ensures Exists(f, key, now).result == Ok(Memory.Exists(m, key, now))
    ensures !IsCorrupt(f, key) ==> Get(f, key, now).result == Memory.Get(m, key, now)
    ensures !IsCorrupt(f, key) ==> TTL(f, key, now).result == Memory.TTL(m, key, now)
  {
    assert Stored(f, key) == (if key in m.data then Some(m.data[key]) else None);
  }

  /** Set keeps a directory and a memory store in step. */
  lemma SetAgrees(f: FileCache, m: Memory.MemoryCache, key: Key, value: Value, ttl: Duration, now: Time)
    requires Represents(f, m)
    ensures Represents(Set(f, key, value, ttl, now), Memory.Set(m, key, value, ttl, now))
  {
  }

  /** Delete keeps a directory and a memory store in step. */
  lemma DeleteAgrees(f: FileCache, m: Memory.MemoryCache, key: Key)
    requires Represents(f, m)
    ensures Represents(Delete(f, key), Memory.Delete(m, key))
  {
  }

  /** Expire keeps a directory and a memory store in step, with the same
      status on a key whose file is not corrupt; on a corrupt file both
      fail (a decode error against KeyNotFound) and neither changes. */
  lemma ExpireAgrees(f: FileCache, m: Memory.MemoryCache, key: Key, ttl: Duration, now: Time)
    requires Represents(f, m)
    ensures Represents(Expire(f, key, ttl, now).state, Memory.Expire(m, key, ttl, now).state)
    ensures !IsCorrupt(f, key) ==> Expire(f, key, ttl, now).status == Memory.Expire(m, key, ttl, now).status
    ensures IsCorrupt(f, key) ==>
              && Expire(f, key, ttl, now).status == Fail(IOError)
              && Memory.Expire(m, key, ttl, now).status == Fail(KeyNotFound)
  {
    assert Stored(f, key) == (if key in m.data then Some(m.data[key]) else None);
  }

  /** The lazy deletions of the reads remove only an entry that is not
      live at `now`, i.e. one the memory backend's sweep would drop too. */
  lemma ReadsKeepRepresentation(f: FileCache, m: Memory.MemoryCache, key: Key, now: Time)
    requires Represents(f, m)
    ensures var m' := if Memory.Holds(m, key, now) then m else Memory.Delete(m, key);
              && Represents(Get(f, key, now).state, m')
              && Represents(Exists(f, key, now).state, m')
              && Represents(TTL(f, key, now).state, m')
  {
    assert Stored(f, key) == (if key in m.data then Some(m.data[key]) else None);
  }
}

=== FILE: file_names.dfy ===
/** How the file backend names the file of a key: `fmt.Sprintf("%x.json", key)`,
    the lower-case hexadecimal encoding of the key's bytes followed by
    ".json". The directory prefix added by filepath.Join is dropped: the
    model's directory is the map of file names itself. */
module FileNames {
  import opened CacheTypes

  const Suffix: string := ".json"

  /** The characters `%x` emits. */
  predicate IsHexDigit(c: char)
  {
    '0' <= c <= '9' || 'a' <= c <= 'f'
  }

  function HexDigit(n: int): (c: char)
    requires 0 <= n < 16
    ensures IsHexDigit(c)
  {
    if n < 10 then ('0' as int + n) as char else ('a' as int + n - 10) as char
  }

  /** The inverse of HexDigit; upper-case digits are not produced by `%x`
      and are rejected. */
  function DigitValue(c: char): (r: Option<int>)
    ensures r.Some? <==> IsHexDigit(c)
    ensures r.Some? ==> 0 <= r.value < 16 && HexDigit(r.value) == c
  {
    if '0' <= c <= '9' then Some(c as int - '0' as int)
    else if 'a' <= c <= 'f' then Some(c as int - 'a' as int + 10)
    else None
  }

  /** Two hex digits per byte, high nibble first. */
  function HexEncode(bytes: seq<uint8>): (s: string)
    ensures |s| == 2 * |bytes|
    ensures forall i :: 0 <= i < |s| ==> IsHexDigit(s[i])
    ensures forall i :: 0 <= i < |bytes| ==>
              s[2 * i] == HexDigit(bytes[i] as int / 16) && s[2 * i + 1] == HexDigit(bytes[i] as int % 16)
  {
    if |bytes| == 0 then ""
    else [HexDigit(bytes[0] as int / 16), HexDigit(bytes[0] as int % 16)] + HexEncode(bytes[1..])
  }

  /** Reads a string of lower-case hex digit pairs back into bytes. */
  function HexDecode(s: string): (r: Option<seq<uint8>>)
    ensures r.Some? ==> 2 * |r.value| == |s|
  {
    if |s| == 0 then Some([])
    else if |s| == 1 then None
    else
      match (DigitValue(s[0]), DigitValue(s[1]), HexDecode(s[2..]))
      case (Some(hi), Some(lo), Some(rest)) => Some([(hi * 16 + lo) as uint8] + rest)
      case _ => None
  }

  /** getFilePath without the directory: the key's hex digits, then ".json". */
  function FileName(key: Key): (n: string)
    ensures |n| == 2 * |key| + |Suffix|
    ensures n[2 * |key|..] == Suffix
    ensures forall i :: 0 <= i < 2 * |key| ==> IsHexDigit(n[i])
  {
    HexEncode(key) + Suffix
  }

  /** Recovers the key of a file name, if the name is one FileName produces. */
  function ParseName(name: string): Option<Key>
  {
    if |name| >= |Suffix| && name[|name| - |Suffix|..] == Suffix
    then HexDecode(name[..|name| - |Suffix|])
    else None
  }

  /** DigitValue reads back the digit HexDigit writes. */
  lemma DigitRoundTrip(n: int)
    requires 0 <= n < 16
    ensures DigitValue(HexDigit(n)) == Some(n)
  {
  }

  lemma {:induction false} DecodeEncode(bytes: seq<uint8>)
    ensures HexDecode(HexEncode(bytes)) == Some(bytes)
    decreases |bytes|
  {
    if |bytes| > 0 {
      var b := bytes[0] as int;
      var rest := HexEncode(bytes[1..]);
      var s := [HexDigit(b / 16), HexDigit(b % 16)] + rest;
      assert HexEncode(bytes) == s;
      assert s[2..] == rest;
      DecodeEncode(bytes[1..]);
      DigitRoundTrip(b / 16);
      DigitRoundTrip(b % 16);
      assert HexDecode(s) == Some([(b / 16 * 16 + b % 16) as uint8] + bytes[1..]);
      assert [(b / 16 * 16 + b % 16) as uint8] + bytes[1..] == bytes;
    }
  }

  /** The byte built from two nibbles splits back into them. */
  lemma NibblesOf(hi: int, lo: int)
    requires 0 <= hi < 16 && 0 <= lo < 16
    ensures (hi * 16 + lo) / 16 == hi && (hi * 16 + lo) % 16 == lo
  {
  }

  lemma {:induction false} EncodeDecode(s: string)
    requires HexDecode(s).Some?
    ensures HexEncode(HexDecode(s).value) == s
    decreases |s|
  {
    if |s| > 0 {
      var hi := DigitValue(s[0]).value;
      var lo := DigitValue(s[1]).value;
      var rest := HexDecode(s[2..]).value;
      var b := (hi * 16 + lo) as uint8;
      assert HexDecode(s) == Some([b] + rest);
      EncodeDecode(s[2..]);
      NibblesOf(hi, lo);
      assert ([b] + rest)[1..] == rest;
      assert HexEncode([b] + rest) == [HexDigit(hi), HexDigit(lo)] + HexEncode(rest);
      assert s == [s[0], s[1]] + s[2..];
    }
  }

  /** An instance: the key bytes 0x1f 0xa0 name the file "1fa0.json". */
  lemma FileNameExample()
    ensures FileName([0x1f as uint8, 0xa0 as uint8]) == "1fa0.json"
  {
  }

  /** A file name is hex digits followed by ".json": it contains no path
      separator, so every key's file lies directly in the cache directory. */
  lemma FileNameShape(key: Key)
    ensures '/' !in FileName(key) && '\\' !in FileName(key)
  {
    var n := FileName(key);
    forall i | 0 <= i < |n|
      ensures n[i] != '/' && n[i] != '\\'
    {
      if i >= 2 * |key| {
        assert n[i] == Suffix[i - 2 * |key|];
      }
    }
  }

  /** ParseName inverts FileName, and only accepts names FileName produces. */
  lemma ParseFileName(key: Key, name: string)
    ensures ParseName(FileName(key)) == Some(key)
    ensures ParseName(name) == Some(key) ==> name == FileName(key)
  {
    var n := FileName(key);
    assert n[|n| - |Suffix|..] == Suffix;
    assert n[..|n| - |Suffix|] == HexEncode(key);
    DecodeEncode(key);
    if ParseName(name) == Some(key) {
      var body := name[..|name| - |Suffix|];
      EncodeDecode(body);
      assert name == body + Suffix;
    }
  }

  /** Distinct keys never share a file. */
  lemma FileNameInjective(a: Key, b: Key)
    ensures FileName(a) == FileName(b) ==> a == b
  {
    ParseFileName(a, FileName(b));
    ParseFileName(b, FileName(b));
  }

  /** No other key shares the file of `key`. */
  lemma OnlyKeyOfItsName(key: Key)
    ensures forall k :: FileName(k) == FileName(key) ==> k == key
  {
    forall k | FileName(k) == FileName(key)
      ensures k == key
    {
      FileNameInjective(k, key);
    }
  }
}

=== FILE: memory_cache.dfy ===
/** The in-process backend (MemoryCache): one map from key to entry.
    The reader/writer lock and the ticker goroutine are erased; the periodic
    cleanup becomes the pure step `Sweep` and its loop form `Cleanup`. */
module Memory {
  import opened CacheTypes

  datatype MemoryCache = MemoryCache(data: map<Key, Entry>)

  /** A fresh cache holds no entries. */
  const Empty: MemoryCache := MemoryCache(map[])

  /** True when the cache has a live entry for `key` at `now`. */
  predicate Holds(c: MemoryCache, key: Key, now: Time)
  {
    key in c.data && Live(c.data[key].expiration, now)
  }

  /** Set replaces whatever was stored under `key`; the error is always nil. */
  function Set(c: MemoryCache, key: Key, value: Value, ttl: Duration, now: Time): (c': MemoryCache)
    ensures key in c'.data && c'.data[key].value == value
    ensures ttl > 0 ==> c'.data[key].expiration == At(now + ttl)
    ensures ttl <= 0 ==> c'.data[key].expiration == Never
    ensures c'.data.Keys == c.data.Keys + {key}
    ensures forall k :: k in c.data && k != key ==> c'.data[k] == c.data[k]
  {
    MemoryCache(c.data[key := Entry(value, ExpirationFor(now, ttl))])
  }

  /** Get answers the stored value of a live entry and KeyNotFound for an
      absent or expired one; it has no new state because it never writes. */
  function Get(c: MemoryCache, key: Key, now: Time): (r: Result<Value>)
    ensures r.Ok? <==> Holds(c, key, now)
    ensures r.Ok? ==> r.value == c.data[key].value
    ensures r.Err? ==> r.error == KeyNotFound
  {
    if key !in c.data then Err(KeyNotFound)
    else if !Live(c.data[key].expiration, now) then Err(KeyNotFound)
    else Ok(c.data[key].value)
  }

  /** Delete removes `key` and nothing else; the error is always nil. */
  function Delete(c: MemoryCache, key: Key): (c': MemoryCache)
    ensures c'.data.Keys == c.data.Keys - {key}
    ensures forall k :: k in c'.data ==> c'.data[k] == c.data[k]
    ensures key !in c.data ==> c' == c
  {
    MemoryCache(c.data - {key})
  }

  /** Exists never fails; it is true exactly for a stored, live entry, so
      it agrees with Get at the same instant. */
  function Exists(c: MemoryCache, key: Key, now: Time): (r: bool)
    ensures r ==> key in c.data && Live(c.data[key].expiration, now)
    ensures r <==> Get(c, key, now).Ok?
  {
    key in c.data && Live(c.data[key].expiration, now)
  }

  /** Expire only checks presence, not liveness: an expired entry the sweep
      has not removed yet gets a new expiration and keeps its value. */
  function Expire(c: MemoryCache, key: Key, ttl: Duration, now: Time): (r: Updated<MemoryCache>)
    ensures r.status == Fail(KeyNotFound) <==> key !in c.data
    ensures r.status == Nil <==> key in c.data
    ensures key !in c.data ==> r.state == c
    ensures key in c.data ==>
              && r.state.data.Keys == c.data.Keys
              && r.state.data[key].value == c.data[key].value
              && r.state.data[key].expiration == (if ttl > 0 then At(now + ttl) else Never)
              && forall k :: k in c.data && k != key ==> r.state.data[k] == c.data[k]
  {
    if key !in c.data then Updated(Fail(KeyNotFound), c)
    else Updated(Nil, MemoryCache(c.data[key := Entry(c.data[key].value, ExpirationFor(now, ttl))]))
  }

  /** TTL: KeyNotFound for absent or expired keys, the -1 sentinel for an
      entry without deadline, the non-negative time left otherwise. */
  function TTL(c: MemoryCache, key: Key, now: Time): (r: Result<Duration>)
    ensures r.Ok? <==> Get(c, key, now).Ok?
    ensures r.Err? ==> r.error == KeyNotFound
    ensures r == Ok(NoExpiry) <==> key in c.data && c.data[key].expiration.Never?
    ensures r.Ok? && r.value != NoExpiry ==>
              r.value >= 0 && c.data[key].expiration == At(now + r.value)
  {
    if key !in c.data then Err(KeyNotFound) else TtlOf(c.data[key], now)
  }

  /** Close stops the cleanup goroutine; on the map it is a no-op. */
  function Close(c: MemoryCache): (r: Updated<MemoryCache>)
    ensures r.status == Nil && r.state.data == c.data
  {
    Updated(Nil, c)
  }

  /** One cleanup tick: keep exactly the entries still live at `now`. */
  function Sweep(c: MemoryCache, now: Time): (c': MemoryCache)
    ensures forall k :: k in c'.data <==> Holds(c, k, now)
    ensures forall k :: k in c'.data ==> k in c.data && c'.data[k] == c.data[k]
  {
    MemoryCache(map k | k in c.data && Live(c.data[k].expiration, now) :: c.data[k])
  }

  /** The cleanup loop as written: visit every key once and delete the
      entries whose deadline `now` has passed. */
  method Cleanup(c: MemoryCache, now: Time) returns (c': MemoryCache)
    ensures forall k :: k in c'.data <==> k in c.data && Live(c.data[k].expiration, now)
    ensures forall k :: k in c'.data ==> k in c.data && c'.data[k] == c.data[k]
    ensures c' == Sweep(c, now)
  {
    var data := c.data;
    var pending := c.data.Keys;
    while pending != {}
      invariant pending <= c.data.Keys
      invariant forall k :: k in data <==> k in c.data && (k in pending || Live(c.data[k].expiration, now))
      invariant forall k :: k in data ==> data[k] == c.data[k]
      decreases pending
    {
      var key :| key in pending;
      if !Live(data[key].expiration, now) {
        data := data - {key};
      }
      pending := pending - {key};
    }
    c' := MemoryCache(data);
  }

  // ---------------------------------------------------------------------
  // Properties relating several operations
  // ---------------------------------------------------------------------

  /** Set followed by Get at the same instant returns the value, whatever
      the ttl; a later Get still does until a positive ttl has elapsed. */
  lemma SetThenGet(c: MemoryCache, key: Key, value: Value, ttl: Duration, now: Time, later: Time)
    requires now <= later && (ttl <= 0 || later <= now + ttl)
    ensures Get(Set(c, key, value, ttl, now), key, later) == Ok(value)
    ensures Exists(Set(c, key, value, ttl, now), key, later)
  {
  }

  /** Once a positive ttl has elapsed the entry reads as absent. */
  lemma SetThenExpires(c: MemoryCache, key: Key, value: Value, ttl: Duration, now: Time, later: Time)
    requires ttl > 0 && later > now + ttl
    ensures Get(Set(c, key, value, ttl, now), key, later) == Err(KeyNotFound)
    ensures !Exists(Set(c, key, value, ttl, now), key, later)
    ensures TTL(Set(c, key, value, ttl, now), key, later) == Err(KeyNotFound)
  {
  }

  /** A non-positive ttl yields the "no expiration" sentinel forever. */
  lemma NeverExpiresTtl(c: MemoryCache, key: Key, value: Value, ttl: Duration, now: Time, later: Time)
    requires ttl <= 0
    ensures TTL(Set(c, key, value, ttl, now), key, later) == Ok(NoExpiry)
  {
  }

  /** The second of two Sets to one key wins. */
  lemma SetOverwrites(c: MemoryCache, key: Key, v1: Value, v2: Value, t1: Duration, t2: Duration, now: Time)
    ensures Set(Set(c, key, v1, t1, now), key, v2, t2, now) == Set(c, key, v2, t2, now)
  {
  }

  /** After Delete, Get fails and Exists is false; deleting twice changes nothing more. */
  lemma DeleteThenGet(c: MemoryCache, key: Key, now: Time)
    ensures Get(Delete(c, key), key, now) == Err(KeyNotFound)
    ensures !Exists(Delete(c, key), key, now)
    ensures Delete(Delete(c, key), key) == Delete(c, key)
  {
  }

  /** Expire revives an expired entry that is still in the map: with a
      positive ttl the old value is readable again. */
  lemma ExpireRevives(c: MemoryCache, key: Key, ttl: Duration, now: Time)
    requires key in c.data && !Live(c.data[key].expiration, now)
    requires ttl > 0
    ensures Get(c, key, now) == Err(KeyNotFound)
    ensures Expire(c, key, ttl, now).status == Nil
    ensures Get(Expire(c, key, ttl, now).state, key, now) == Ok(c.data[key].value)
  {
  }

  /** A sweep is idempotent. */
  lemma SweepIdempotent(c: MemoryCache, now: Time)
    ensures Sweep(Sweep(c, now), now) == Sweep(c, now)
  {
    var once := Sweep(c, now);
    assert Sweep(once, now).data == once.data;
  }

  /** A sweep at `now` is invisible to every read at `now` or later,
      because an entry dead at `now` stays dead. */
  lemma SweepPreservesReads(c: MemoryCache, key: Key, now: Time, later: Time)
    requires now <= later
    ensures Get(Sweep(c, now), key, later) == Get(c, key, later)
    ensures Exists(Sweep(c, now), key, later) == Exists(c, key, later)
    ensures TTL(Sweep(c, now), key, later) == TTL(c, key, later)
  {
    if key in c.data {
      ExpiryIsFinal(c.data[key].expiration, now, later);
    }
  }

  /** The sweep is not invisible to Expire: an expired entry that Expire
      would revive is gone after a sweep, so Expire then fails. */
  lemma SweepEndsRevival(c: MemoryCache, key: Key, ttl: Duration, now: Time)
    requires key in c.data && !Live(c.data[key].expiration, now)
    ensures Expire(c, key, ttl, now).status == Nil
    ensures Expire(Sweep(c, now), key, ttl, now).status == Fail(KeyNotFound)
  {
  }

  /** Deleting an entry that is not live at `now` is invisible to every
      read of any key at `now` or later. */
  lemma DeleteDeadInvisible(c: MemoryCache, key: Key, other: Key, now: Time, later: Time)
    requires !Holds(c, key, now) && now <= later
    ensures Get(Delete(c, key), other, later) == Get(c, other, later)
    ensures Exists(Delete(c, key), other, later) == Exists(c, other, later)
    ensures TTL(Delete(c, key), other, later) == TTL(c, other, later)
  {
  }
}

=== FILE: multi_cache.dfy ===
/** The composite backend (MultiCache): an ordered sequence of tiers, index
    0 the fastest. Writes fan out to every tier and swallow tier errors;
    reads probe the tiers in order; a Get hit at index i is promoted into
    every tier before i with "never expires". */
module Multi {
  import opened CacheTypes
  import Memory
  import File

  /** The seven calls of the Cache interface. */
  datatype Call = SetCall | GetCall | DeleteCall | ExistsCall | ExpireCall | TtlCall | CloseCall

  /** The backend a tier keeps its entries in. */
  datatype Store = InMemory(mem: Memory.MemoryCache) | OnDisk(fc: File.FileCache)

  /** One tier: a backend and the calls that currently fail on it. A failing
      call answers a connection error and changes nothing, as a remote tier
      does whose server drops or refuses that request. A tier failing every
      call is offline; one failing only Set refuses new values but still
      answers reads, deletes and expiries. The environment may
      change `fails` between two calls. */
  datatype Tier = Tier(store: Store, fails: set<Call>)

  /** The entry a backend holds for `key`; a corrupt file holds none. */
  function Holding(s: Store, key: Key): Option<Entry>
  {
    match s
    case InMemory(m) => if key in m.data then Some(m.data[key]) else None
    case OnDisk(f) => File.Stored(f, key)
  }

  /** What a read may change: a memory tier nothing; a file tier only the
      key's own file, and only when it holds no live entry (an expired file
      is deleted, a corrupt one may be). */
  ghost predicate ReadFrame(t: Tier, t': Tier, key: Key, now: Time)
  {
    && t'.fails == t.fails
    && (t.store.InMemory? ==> t' == t)
    && (forall k :: k != key ==> Holding(t'.store, k) == Holding(t.store, k))
    && (Holding(t'.store, key) != Holding(t.store, key) ==>
          && Holding(t'.store, key).None?
          && !Live(Holding(t.store, key).value.expiration, now))
  }

  // ---------------------------------------------------------------------
  // The Cache interface, dispatched on the kind of backend
  // ---------------------------------------------------------------------

  function TierSet(t: Tier, key: Key, value: Value, ttl: Duration, now: Time): (r: Updated<Tier>)
    ensures r.state.fails == t.fails
    ensures r.status == Nil <==> SetCall !in t.fails
    ensures r.status.Fail? ==> r == Updated(Fail(Connection), t)
    ensures r.status == Nil ==> Holding(r.state.store, key) == Some(Entry(value, ExpirationFor(now, ttl)))
    ensures forall k :: k != key ==> Holding(r.state.store, k) == Holding(t.store, k)
  {
    if SetCall in t.fails then Updated(Fail(Connection), t)
    else match t.store
      case InMemory(m) => Updated(Nil, t.(store := InMemory(Memory.Set(m, key, value, ttl, now))))
      case OnDisk(f) => Updated(Nil, t.(store := OnDisk(File.Set(f, key, value, ttl, now))))
  }

  function TierGet(t: Tier, key: Key, now: Time): (r: Answer<Value, Tier>)
    ensures r.state.fails == t.fails
    ensures GetCall in t.fails ==> r == Answer(Err(Connection), t)
    ensures r.result.Ok? <==>
              GetCall !in t.fails && Holding(t.store, key).Some? && Live(Holding(t.store, key).value.expiration, now)
    ensures r.result.Ok? ==> r.result.value == Holding(t.store, key).value.value && r.state == t
    ensures ReadFrame(t, r.state, key, now)
  {
    if GetCall in t.fails then Answer(Err(Connection), t)
    else match t.store
      case InMemory(m) => Answer(Memory.Get(m, key, now), t)
      case OnDisk(f) =>
        var a := File.Get(f, key, now);
        Answer(a.result, t.(store := OnDisk(a.state)))
  }

  function TierDelete(t: Tier, key: Key): (r: Updated<Tier>)
    ensures r.state.fails == t.fails
    ensures r.status == Nil <==> DeleteCall !in t.fails
    ensures r.status.Fail? ==> r == Updated(Fail(Connection), t)
    ensures r.status == Nil ==> Holding(r.state.store, key) == None
    ensures forall k :: k != key ==> Holding(r.state.store, k) == Holding(t.store, k)
  {
    if DeleteCall in t.fails then Updated(Fail(Connection), t)
    else match t.store
      case InMemory(m) => Updated(Nil, t.(store := InMemory(Memory.Delete(m, key))))
      case OnDisk(f) => Updated(Nil, t.(store := OnDisk(File.Delete(f, key))))
  }

  function TierExists(t: Tier, key: Key, now: Time): (r: Answer<bool, Tier>)
    ensures r.state.fails == t.fails
    ensures ExistsCall in t.fails ==> r == Answer(Err(Connection), t)
    ensures ExistsCall !in t.fails ==>
              r.result == Ok(Holding(t.store, key).Some? && Live(Holding(t.store, key).value.expiration, now))
    ensures ReadFrame(t, r.state, key, now)
  {
    if ExistsCall in t.fails then Answer(Err(Connection), t)
    else match t.store
      case InMemory(m) => Answer(Ok(Memory.Exists(m, key, now)), t)
      case OnDisk(f) =>
        var a := File.Exists(f, key, now);
        Answer(a.result, t.(store := OnDisk(a.state)))
  }

  function TierExpire(t: Tier, key: Key, ttl: Duration, now: Time): (r: Updated<Tier>)
    ensures r.state.fails == t.fails
    ensures ExpireCall in t.fails ==> r == Updated(Fail(Connection), t)
    ensures r.status == Nil <==> ExpireCall !in t.fails && Holding(t.store, key).Some?
    ensures r.status == Nil ==>
              Holding(r.state.store, key) == Some(Entry(Holding(t.store, key).value.value, ExpirationFor(now, ttl)))
    ensures r.status != Nil ==> r.state == t
    ensures forall k :: k != key ==> Holding(r.state.store, k) == Holding(t.store, k)
  {
    if ExpireCall in t.fails then Updated(Fail(Connection), t)
    else match t.store
      case InMemory(m) =>
        var u := Memory.Expire(m, key, ttl, now);
        Updated(u.status, t.(store := InMemory(u.state)))
      case OnDisk(f) =>
        var u := File.Expire(f, key, ttl, now);
        Updated(u.status, t.(store := OnDisk(u.state)))
  }

  function TierTTL(t: Tier, key: Key, now: Time): (r: Answer<Duration, Tier>)
    ensures r.state.fails == t.fails
    ensures TtlCall in t.fails ==> r == Answer(Err(Connection), t)
    ensures r.result.Ok? <==>
              TtlCall !in t.fails && Holding(t.store, key).Some? && Live(Holding(t.store, key).value.expiration, now)
    ensures r.result == Ok(NoExpiry) <==>
              TtlCall !in t.fails && Holding(t.store, key).Some? && Holding(t.store, key).value.expiration.Never?
    ensures r.result.Ok? && r.result.value != NoExpiry ==>
              r.result.value >= 0 && Holding(t.store, key).value.expiration == At(now + r.result.value)
    ensures ReadFrame(t, r.state, key, now)
  {
    if TtlCall in t.fails then Answer(Err(Connection), t)
    else match t.store
      case InMemory(m) => Answer(Memory.TTL(m, key, now), t)
      case OnDisk(f) =>
        var a := File.TTL(f, key, now);
        Answer(a.result, t.(store := OnDisk(a.state)))
  }

  function TierClose(t: Tier): (r: Updated<Tier>)
    ensures r.state == t
    ensures r.status == Nil <==> CloseCall !in t.fails
  {
    if CloseCall in t.fails then Updated(Fail(Connection), t)
    else match t.store
      case InMemory(m) => Updated(Memory.Close(m).status, t)
      case OnDisk(f) => Updated(File.Close(f).status, t)
  }

  /** A tier whose Get succeeds. */
  predicate Hit(t: Tier, key: Key, now: Time)
  {
    TierGet(t, key, now).result.Ok?
  }

  // ---------------------------------------------------------------------
  // The two loop shapes of the composite
  // ---------------------------------------------------------------------

  /** Apply `op` to every tier in index order; the tier's status is dropped. */
  function FanOut(tiers: seq<Tier>, op: Tier -> Updated<Tier>): (r: seq<Tier>)
    ensures |r| == |tiers|
    ensures forall i :: 0 <= i < |tiers| ==> r[i] == op(tiers[i]).state
  {
    if |tiers| == 0 then [] else [op(tiers[0]).state] + FanOut(tiers[1..], op)
  }

  /** The outcome of probing tiers in order: the answer, the index of the
      tier that was accepted (if any) and the tiers afterwards. */
  datatype Probe<T> = Probe(result: Result<T>, hit: Option<nat>, state: seq<Tier>)

  /** Probe the tiers in index order until `accept` holds of a tier's
      answer; tiers after that one are not touched. */
  function ProbeUntil<T>(tiers: seq<Tier>, probe: Tier -> Answer<T, Tier>,
                         accept: Result<T> -> bool, miss: Result<T>): (p: Probe<T>)
    ensures |p.state| == |tiers|
  {
    if |tiers| == 0 then Probe(miss, None, [])
    else
      var a := probe(tiers[0]);
      if accept(a.result) then Probe(a.result, Some(0), [a.state] + tiers[1..])
      else
        var rest := ProbeUntil(tiers[1..], probe, accept, miss);
        Probe(rest.result, if rest.hit.Some? then Some(rest.hit.value + 1) else None, [a.state] + rest.state)
  }

  /** `after` is `before` with the first `n` tiers replaced by what `probe`
      left of them. */
  ghost predicate ProbedPrefix<T>(before: seq<Tier>, after: seq<Tier>, probe: Tier -> Answer<T, Tier>, n: int)
  {
    && |after| == |before|
    && (forall j :: 0 <= j < |before| && j < n ==> after[j] == probe(before[j]).state)
    && (forall j :: 0 <= j < |before| && n <= j ==> after[j] == before[j])
  }

  /** `i` is the first index whose answer is accepted. */
  ghost predicate FirstAccepted<T>(tiers: seq<Tier>, probe: Tier -> Answer<T, Tier>, accept: Result<T> -> bool, i: int)
  {
    && 0 <= i < |tiers|
    && accept(probe(tiers[i]).result)
    && forall j :: 0 <= j < i ==> !accept(probe(tiers[j]).result)
  }

  lemma {:induction false} ProbeUntilFindsFirst<T>(tiers: seq<Tier>, probe: Tier -> Answer<T, Tier>,
                                                   accept: Result<T> -> bool, miss: Result<T>)
    ensures var p := ProbeUntil(tiers, probe, accept, miss);
      && (p.hit.None? <==> forall j :: 0 <= j < |tiers| ==> !accept(probe(tiers[j]).result))
      && (p.hit.None? ==> p.result == miss && ProbedPrefix(tiers, p.state, probe, |tiers|))
      && (p.hit.Some? ==>
            && FirstAccepted(tiers, probe, accept, p.hit.value)
            && p.result == probe(tiers[p.hit.value]).result
            && ProbedPrefix(tiers, p.state, probe, p.hit.value + 1))
    decreases |tiers|
  {
    if |tiers| > 0 {
      var p := ProbeUntil(tiers, probe, accept, miss);
      var a := probe(tiers[0]);
      if !accept(a.result) {
        var rest := ProbeUntil(tiers[1..], probe, accept, miss);
        ProbeUntilFindsFirst(tiers[1..], probe, accept, miss);
        assert forall j :: 1 <= j < |tiers| ==> tiers[j] == tiers[1..][j - 1];
        assert forall j :: 1 <= j < |tiers| ==> p.state[j] == rest.state[j - 1];
        if rest.hit.Some? {
          var i := rest.hit.value + 1;
          forall j | 0 <= j < i
            ensures !accept(probe(tiers[j]).result)
          {
            if j > 0 {
              assert tiers[j] == tiers[1..][j - 1];
            }
          }
        } else {
          forall j | 0 <= j < |tiers|
            ensures !accept(probe(tiers[j]).result)
          {
            if j > 0 {
              assert tiers[j] == tiers[1..][j - 1];
            }
          }
        }
      }
    }
  }

  // ---------------------------------------------------------------------
  // MultiCache operations
  // ---------------------------------------------------------------------

  /** Set writes every tier in order and reports nil whatever they answer. */
  function Set(tiers: seq<Tier>, key: Key, value: Value, ttl: Duration, now: Time): (r: Updated<seq<Tier>>)
    ensures r.status == Nil
    ensures |r.state| == |tiers|
    ensures forall i :: 0 <= i < |tiers| ==> r.state[i] == TierSet(tiers[i], key, value, ttl, now).state
  {
    Updated(Nil, FanOut(tiers, t => TierSet(t, key, value, ttl, now)))
  }

  /** The copy of `value` a promotion writes into every tier before the
      hit: Set with ttl 0, i.e. never expiring. */
  function PromoteAll(states: seq<Tier>, key: Key, value: Value, now: Time): (r: seq<Tier>)
    ensures |r| == |states|
    ensures forall j :: 0 <= j < |states| ==> r[j] == TierSet(states[j], key, value, 0, now).state
  {
    if |states| == 0 then [] else [TierSet(states[0], key, value, 0, now).state] + PromoteAll(states[1..], key, value, now)
  }

  /** Get: the value of the first tier whose Get succeeds, written back
      into every tier before it; KeyNotFound when no tier has it. */
  function Get(tiers: seq<Tier>, key: Key, now: Time): (r: Answer<Value, seq<Tier>>)
    ensures ReadThrough(tiers, key, now, r)
  {
    var probe := t => TierGet(t, key, now);
    var accept := (a: Result<Value>) => a.Ok?;
    var p := ProbeUntil(tiers, probe, accept, Err(KeyNotFound));
    ProbeUntilFindsFirst(tiers, probe, accept, Err(KeyNotFound));
    assert p.hit.Some? ==> FirstHit(tiers, key, now, p.hit.value);
    Promotion(tiers, key, now, p)
  }

  /** What the probe loop of Get leaves behind: the answer of the first
      hit (or KeyNotFound), every tier up to it probed, later ones not. */
  ghost predicate GetProbed(tiers: seq<Tier>, key: Key, now: Time, p: Probe<Value>)
  {
    && |p.state| == |tiers|
    && (p.hit.None? <==> forall j :: 0 <= j < |tiers| ==> !Hit(tiers[j], key, now))
    && (p.hit.None? ==>
          && p.result == Err(KeyNotFound)
          && forall j :: 0 <= j < |tiers| ==> p.state[j] == TierGet(tiers[j], key, now).state)
    && (p.hit.Some? ==>
          && FirstHit(tiers, key, now, p.hit.value)
          && p.result == TierGet(tiers[p.hit.value], key, now).result
          && (forall j :: 0 <= j <= p.hit.value ==> p.state[j] == TierGet(tiers[j], key, now).state)
          && (forall j :: p.hit.value < j < |tiers| ==> p.state[j] == tiers[j]))
  }

  /** The promotion step of Get: after a hit at i, write the value into
      every tier j < i. */
  function Promotion(tiers: seq<Tier>, key: Key, now: Time, p: Probe<Value>): (r: Answer<Value, seq<Tier>>)
    requires GetProbed(tiers, key, now, p)
    ensures ReadThrough(tiers, key, now, r)
  {
    if p.hit.None? then Answer(p.result, p.state)
    else
      var i := p.hit.value;
      assert forall k :: FirstHit(tiers, key, now, k) ==> k == i;
      Answer(p.result, PromoteAll(p.state[..i], key, p.result.value, now) + p.state[i..])
  }

  /** The contract of Get: KeyNotFound exactly when no tier's Get succeeds,
      every tier then probed; otherwise the first hit decides the answer
      and is promoted. */
  ghost predicate ReadThrough(tiers: seq<Tier>, key: Key, now: Time, r: Answer<Value, seq<Tier>>)
  {
    && |r.state| == |tiers|
    && (r.result.Err? <==> forall j :: 0 <= j < |tiers| ==> !Hit(tiers[j], key, now))
    && (r.result.Err? ==>
          && r.result.error == KeyNotFound
          && forall j :: 0 <= j < |tiers| ==> r.state[j] == TierGet(tiers[j], key, now).state)
    && (r.result.Ok? ==> exists i :: FirstHit(tiers, key, now, i))
    && (forall i :: FirstHit(tiers, key, now, i) ==> Promoted(tiers, r, key, now, i))
  }

  /** `i` is the first tier whose Get succeeds. */
  ghost predicate FirstHit(tiers: seq<Tier>, key: Key, now: Time, i: int)
  {
    && 0 <= i < |tiers|
    && Hit(tiers[i], key, now)
    && forall j :: 0 <= j < i ==> !Hit(tiers[j], key, now)
  }

  /** After a hit at `i`: the answer is tier i's value, every earlier tier
      was probed and then given a never-expiring copy, tier i is as its Get
      left it, and later tiers are untouched. */
  ghost predicate Promoted(tiers: seq<Tier>, r: Answer<Value, seq<Tier>>, key: Key, now: Time, i: int)
  {
    && 0 <= i < |tiers| && |r.state| == |tiers|
    && Hit(tiers[i], key, now)
    && r.result == TierGet(tiers[i], key, now).result
    && (forall j :: 0 <= j < i ==>
          r.state[j] == TierSet(TierGet(tiers[j], key, now).state, key, r.result.value, 0, now).state)
    && r.state[i] == TierGet(tiers[i], key, now).state
    && (forall j :: i < j < |tiers| ==> r.state[j] == tiers[j])
  }

  /** Delete removes the key from every tier and reports nil. */
  function Delete(tiers: seq<Tier>, key: Key): (r: Updated<seq<Tier>>)
    ensures r.status == Nil
    ensures |r.state| == |tiers|
    ensures forall i :: 0 <= i < |tiers| ==> r.state[i] == TierDelete(tiers[i], key).state
  {
    Updated(Nil, FanOut(tiers, t => TierDelete(t, key)))
  }

  /** Exists is true iff some tier answers (true, nil); a tier error counts
      as false, the composite never fails, and probing stops at the first
      tier that says true. */
  function Exists(tiers: seq<Tier>, key: Key, now: Time): (r: Answer<bool, seq<Tier>>)
    ensures r.result.Ok? && |r.state| == |tiers|
    ensures r.result.value <==> exists i :: 0 <= i < |tiers| && SaysYes(tiers[i], key, now)
    ensures r.result.value ==> exists i :: FirstYes(tiers, key, now, i)
    ensures !r.result.value ==>
              forall j :: 0 <= j < |tiers| ==> r.state[j] == TierExists(tiers[j], key, now).state
    ensures forall i :: FirstYes(tiers, key, now, i) ==>
              && (forall j :: 0 <= j <= i ==> r.state[j] == TierExists(tiers[j], key, now).state)
              && (forall j :: i < j < |tiers| ==> r.state[j] == tiers[j])
  {
    var probe := t => TierExists(t, key, now);
    var accept := (a: Result<bool>) => a == Ok(true);
    var p := ProbeUntil(tiers, probe, accept, Ok(false));
    ProbeUntilFindsFirst(tiers, probe, accept, Ok(false));
    assert forall k :: FirstYes(tiers, key, now, k) ==> p.hit == Some(k);
    assert p.hit.Some? ==> FirstYes(tiers, key, now, p.hit.value);
    Answer(p.result, p.state)
  }

  /** A tier that answers (true, nil) to Exists. */
  predicate SaysYes(t: Tier, key: Key, now: Time)
  {
    TierExists(t, key, now).result == Ok(true)
  }

  /** `i` is the first tier that answers (true, nil) to Exists. */
  ghost predicate FirstYes(tiers: seq<Tier>, key: Key, now: Time, i: int)
  {
    && 0 <= i < |tiers|
    && SaysYes(tiers[i], key, now)
    && forall j :: 0 <= j < i ==> !SaysYes(tiers[j], key, now)
  }

  /** Expire updates every tier and reports nil, even when no tier holds
      the key (a single tier would report KeyNotFound). */
  function Expire(tiers: seq<Tier>, key: Key, ttl: Duration, now: Time): (r: Updated<seq<Tier>>)
    ensures r.status == Nil
    ensures |r.state| == |tiers|
    ensures forall i :: 0 <= i < |tiers| ==> r.state[i] == TierExpire(tiers[i], key, ttl, now).state
  {
    Updated(Nil, FanOut(tiers, t => TierExpire(t, key, ttl, now)))
  }

  /** TTL answers what the first tier that answers without error says; it
      does not aggregate, and KeyNotFound when every tier fails. */
  function TTL(tiers: seq<Tier>, key: Key, now: Time): (r: Answer<Duration, seq<Tier>>)
    ensures |r.state| == |tiers|
    ensures r.result.Err? <==> forall j :: 0 <= j < |tiers| ==> !Answers(tiers[j], key, now)
    ensures r.result.Ok? ==> exists i :: FirstAnswer(tiers, key, now, i)
    ensures r.result.Err? ==>
              && r.result.error == KeyNotFound
              && forall j :: 0 <= j < |tiers| ==> r.state[j] == TierTTL(tiers[j], key, now).state
    ensures forall i :: FirstAnswer(tiers, key, now, i) ==>
              && r.result == TierTTL(tiers[i], key, now).result
              && (forall j :: 0 <= j <= i ==> r.state[j] == TierTTL(tiers[j], key, now).state)
              && (forall j :: i < j < |tiers| ==> r.state[j] == tiers[j])
  {
    var probe := t => TierTTL(t, key, now);
    var accept := (a: Result<Duration>) => a.Ok?;
    var p := ProbeUntil(tiers, probe, accept, Err(KeyNotFound));
    ProbeUntilFindsFirst(tiers, probe, accept, Err(KeyNotFound));
    assert forall k :: FirstAnswer(tiers, key, now, k) ==> p.hit == Some(k);
    assert p.hit.Some? ==> FirstAnswer(tiers, key, now, p.hit.value);
    Answer(p.result, p.state)
  }

  /** A tier whose TTL answers without error. */
  predicate Answers(t: Tier, key: Key, now: Time)
  {
    TierTTL(t, key, now).result.Ok?
  }

  /** `i` is the first tier whose TTL answers without error. */
  ghost predicate FirstAnswer(tiers: seq<Tier>, key: Key, now: Time, i: int)
  {
    && 0 <= i < |tiers|
    && Answers(tiers[i], key, now)
    && forall j :: 0 <= j < i ==> !Answers(tiers[j], key, now)
  }

  /** Close closes every tier and reports nil whatever they answer. */
  function Close(tiers: seq<Tier>): (r: Updated<seq<Tier>>)
    ensures r.status == Nil
    ensures r.state == tiers
  {
    Updated(Nil, FanOut(tiers, TierClose))
  }

  // ---------------------------------------------------------------------
  // Properties relating several operations
  // ---------------------------------------------------------------------

  /** A tier that accepts Set and Get serves what was just Set into it,
      until a positive ttl has elapsed; a ttl of 0 (a promotion) never
      expires, and TTL then answers -1. */
  lemma TierSetThenRead(t: Tier, key: Key, value: Value, ttl: Duration, now: Time, later: Time)
    requires SetCall !in t.fails && GetCall !in t.fails
    requires ttl <= 0 || now <= later <= now + ttl
    ensures TierGet(TierSet(t, key, value, ttl, now).state, key, later).result == Ok(value)
    ensures ttl <= 0 && TtlCall !in t.fails ==>
              TierTTL(TierSet(t, key, value, ttl, now).state, key, later).result == Ok(NoExpiry)
  {
  }

  /** For a single tier whose Exists and Get both answer, or both fail,
      Exists says (true, nil) exactly when Get succeeds. */
  lemma TierExistsMatchesGet(t: Tier, key: Key, now: Time)
    requires ExistsCall in t.fails <==> GetCall in t.fails
    ensures SaysYes(t, key, now) <==> Hit(t, key, now)
  {
  }

  /** Every tier that accepts Set and Get answers Get with the value just
      Set; the first tier answering Get is one of those when every tier up
      to a `reachable` one accepted the Set. */
  lemma SetThenGet(tiers: seq<Tier>, key: Key, value: Value, ttl: Duration, now: Time, reachable: nat)
    requires reachable < |tiers| && GetCall !in tiers[reachable].fails
    requires forall j :: 0 <= j <= reachable ==> SetCall !in tiers[j].fails
    ensures Get(Set(tiers, key, value, ttl, now).state, key, now).result == Ok(value)
  {
    var s := Set(tiers, key, value, ttl, now).state;
    var r := Get(s, key, now);
    TierSetThenRead(tiers[reachable], key, value, ttl, now, now);
    assert Hit(s[reachable], key, now);
    var i :| FirstHit(s, key, now, i);
    assert i <= reachable;
    TierSetThenRead(tiers[i], key, value, ttl, now, now);
  }

  /** Set reports nil even when every tier refused it, and then nothing
      was written anywhere. */
  lemma SetSwallowsFailures(tiers: seq<Tier>, key: Key, value: Value, ttl: Duration, now: Time)
    requires forall j :: 0 <= j < |tiers| ==> SetCall in tiers[j].fails
    ensures Set(tiers, key, value, ttl, now).status == Nil
    ensures Set(tiers, key, value, ttl, now).state == tiers
  {
  }

  /** A second Set of the same key through the composite wins, under the
      condition of SetThenGet. */
  lemma SetOverwrites(tiers: seq<Tier>, key: Key, v1: Value, v2: Value, ttl: Duration, now: Time, reachable: nat)
    requires reachable < |tiers| && GetCall !in tiers[reachable].fails
    requires forall j :: 0 <= j <= reachable ==> SetCall !in tiers[j].fails
    ensures Get(Set(Set(tiers, key, v1, ttl, now).state, key, v2, ttl, now).state, key, now).result == Ok(v2)
  {
    var s := Set(tiers, key, v1, ttl, now).state;
    assert forall j :: 0 <= j < |tiers| ==> s[j].fails == tiers[j].fails;
    SetThenGet(s, key, v2, ttl, now, reachable);
  }

  /** The consistency gap of the fan-out: when the first tier refuses a Set
      but still answers Get, the composite reports nil and Get then serves
      the first tier's old answer, not the value just Set. */
  lemma SwallowedSetServesStale(tiers: seq<Tier>, key: Key, value: Value, ttl: Duration, now: Time)
    requires |tiers| > 0 && SetCall in tiers[0].fails && Hit(tiers[0], key, now)
    ensures Set(tiers, key, value, ttl, now).status == Nil
    ensures Get(Set(tiers, key, value, ttl, now).state, key, now).result == TierGet(tiers[0], key, now).result
  {
    var s := Set(tiers, key, value, ttl, now).state;
    assert FirstHit(s, key, now, 0);
  }

  /** An instance: a memory tier holds "1" and then starts refusing Set; a Set
      of "2" through [it, anything] reports nil, and Get answers "1". */
  lemma SetRefusingTierServesStale(key: Key, back: Tier, now: Time)
    ensures var front := Tier(InMemory(Memory.Set(Memory.Empty, key, "1", 0, now)), {SetCall});
      var w := Set([front, back], key, "2", 0, now);
      && w.status == Nil
      && Get(w.state, key, now).result == Ok("1")
  {
    var front := Tier(InMemory(Memory.Set(Memory.Empty, key, "1", 0, now)), {SetCall});
    SwallowedSetServesStale([front, back], key, "2", 0, now);
  }

  /** Delete then Get through the composite misses, provided every tier
      either accepted the Delete or fails Get. */
  lemma DeleteThenGet(tiers: seq<Tier>, key: Key, now: Time)
    requires forall j :: 0 <= j < |tiers| ==> DeleteCall !in tiers[j].fails || GetCall in tiers[j].fails
    ensures Get(Delete(tiers, key).state, key, now).result == Err(KeyNotFound)
  {
    var s := Delete(tiers, key).state;
    forall j | 0 <= j < |s|
      ensures !Hit(s[j], key, now)
    {
    }
  }

  /** The same gap for Delete: when the first tier refuses the Delete but
      answers Get, the composite reports nil and Get still finds the key. */
  lemma SwallowedDeleteServesDeleted(tiers: seq<Tier>, key: Key, now: Time)
    requires |tiers| > 0 && DeleteCall in tiers[0].fails && Hit(tiers[0], key, now)
    ensures Delete(tiers, key).status == Nil
    ensures Get(Delete(tiers, key).state, key, now).result == TierGet(tiers[0], key, now).result
    ensures Get(Delete(tiers, key).state, key, now).result.Ok?
  {
    var s := Delete(tiers, key).state;
    assert FirstHit(s, key, now, 0);
  }

  /** The composite Exists agrees with the composite Get at the same
      instant, when no tier fails one of the two calls but not the other. */
  lemma ExistsAgreesWithGet(tiers: seq<Tier>, key: Key, now: Time)
    requires forall j :: 0 <= j < |tiers| ==> (ExistsCall in tiers[j].fails <==> GetCall in tiers[j].fails)
    ensures Exists(tiers, key, now).result == Ok(Get(tiers, key, now).result.Ok?)
  {
    forall j | 0 <= j < |tiers|
      ensures SaysYes(tiers[j], key, now) <==> Hit(tiers[j], key, now)
    {
      TierExistsMatchesGet(tiers[j], key, now);
    }
  }

  /** Promoted copies never expire: after a hit at `i`, every tier before
      `i` that accepts Set and Get serves the value at any later instant,
      with TTL -1 when it answers TTL. */
  lemma PromotedCopiesNeverExpire(tiers: seq<Tier>, key: Key, now: Time, i: nat, j: nat, later: Time)
    requires FirstHit(tiers, key, now, i) && j < i
    requires SetCall !in tiers[j].fails && GetCall !in tiers[j].fails
    ensures var r := Get(tiers, key, now);
      && r.result.Ok?
      && TierGet(r.state[j], key, later).result == r.result
      && (TtlCall !in tiers[j].fails ==> TierTTL(r.state[j], key, later).result == Ok(NoExpiry))
  {
    var r := Get(tiers, key, now);
    assert Promoted(tiers, r, key, now, i);
    var probed := TierGet(tiers[j], key, now).state;
    TierSetThenRead(probed, key, r.result.value, 0, now, later);
  }

  /** A hit in tier 0 writes nothing. */
  lemma HitInFirstTierWritesNothing(tiers: seq<Tier>, key: Key, now: Time)
    requires |tiers| > 0 && Hit(tiers[0], key, now)
    ensures Get(tiers, key, now).state == [TierGet(tiers[0], key, now).state] + tiers[1..]
  {
    var r := Get(tiers, key, now);
    assert FirstHit(tiers, key, now, 0);
    assert Promoted(tiers, r, key, now, 0);
  }

  /** Set "k" through a two-tier composite of healthy tiers, delete it from
      the fast tier only: Get through the composite still answers the value
      (from the slow tier), and the fast tier then holds a copy that never
      expires. */
  lemma ServedBySlowTierAndRepopulated(fast: Tier, slow: Tier, key: Key, value: Value, ttl: Duration,
                                       now: Time, later: Time)
    requires fast.fails == {} && slow.fails == {}
    ensures var s := Set([fast, slow], key, value, ttl, now).state;
      var r := Get([TierDelete(s[0], key).state, s[1]], key, now);
      && r.result == Ok(value)
      && TierGet(r.state[0], key, later).result == Ok(value)
      && TierTTL(r.state[0], key, later).result == Ok(NoExpiry)
      && r.state[1] == s[1]
  {
    var s := Set([fast, slow], key, value, ttl, now).state;
    var tiers := [TierDelete(s[0], key).state, s[1]];
    TierSetThenRead(slow, key, value, ttl, now, now);
    assert !Hit(tiers[0], key, now);
    assert FirstHit(tiers, key, now, 1);
    PromotedCopiesNeverExpire(tiers, key, now, 1, 0, later);
    assert Promoted(tiers, Get(tiers, key, now), key, now, 1);
  }

  /** A single tier that accepts Expire and TTL answers TTL after Expire
      exactly when it holds the key, with the new ttl or -1. */
  lemma TierExpireThenTTL(t: Tier, key: Key, ttl: Duration, now: Time)
    requires ExpireCall !in t.fails && TtlCall !in t.fails
    ensures var e := TierExpire(t, key, ttl, now).state;
      && (Answers(e, key, now) <==> Holding(t.store, key).Some?)
      && (Answers(e, key, now) ==> TierTTL(e, key, now).result == Ok(if ttl > 0 then ttl else NoExpiry))
  {
  }

  /** Expire then TTL through the composite at the same instant: when every
      tier accepts both calls and some tier holds the key, TTL answers the
      new ttl, or -1 for a ttl that means "never expires". */
  lemma ExpireThenTTL(tiers: seq<Tier>, key: Key, ttl: Duration, now: Time, holder: nat)
    requires forall j :: 0 <= j < |tiers| ==> ExpireCall !in tiers[j].fails && TtlCall !in tiers[j].fails
    requires holder < |tiers| && Holding(tiers[holder].store, key).Some?
    ensures TTL(Expire(tiers, key, ttl, now).state, key, now).result == Ok(if ttl > 0 then ttl else NoExpiry)
  {
    var s := Expire(tiers, key, ttl, now).state;
    TierExpireThenTTL(tiers[holder], key, ttl, now);
    assert Answers(s[holder], key, now);
    var r := TTL(s, key, now);
    assert r.result.Ok?;
    var i :| FirstAnswer(s, key, now, i);
    TierExpireThenTTL(tiers[i], key, ttl, now);
  }

  /** Expire through the composite succeeds for a key no tier holds,
      although every tier on its own reports KeyNotFound. */
  lemma ExpireOfAbsentKeySucceeds(tiers: seq<Tier>, key: Key, ttl: Duration, now: Time)
    requires forall j :: 0 <= j < |tiers| ==>
               && ExpireCall !in tiers[j].fails
               && tiers[j].store.InMemory? && key !in tiers[j].store.mem.data
    ensures Expire(tiers, key, ttl, now).status == Nil
    ensures forall j :: 0 <= j < |tiers| ==> TierExpire(tiers[j], key, ttl, now).status == Fail(KeyNotFound)
    ensures Expire(tiers, key, ttl, now).state == tiers
  {
    forall j | 0 <= j < |tiers|
      ensures TierExpire(tiers[j], key, ttl, now) == Updated(Fail(KeyNotFound), tiers[j])
    {
    }
  }
}

=== FILE: remote_cache.dfy ===
/** The local logic of the Redis adapter (RedisCache): translating the
    client's replies into the Cache contract. The network client and the
    server are not modelled; a reply is a parameter, `Err` when the client
    call itself failed. */
module Remote {
  import opened CacheTypes
  import Memory

  /** Get: the client's "no such key" reply (redis.Nil, here `Ok(None)`)
      becomes KeyNotFound; a value and any other error pass through. */
  function GetReply(reply: Result<Option<Value>>): (r: Result<Value>)
    ensures r.Ok? <==> reply.Ok? && reply.value.Some?
    ensures r.Ok? ==> r.value == reply.value.value
    ensures reply == Ok(None) ==> r == Err(KeyNotFound)
    ensures reply.Err? ==> r == Err(reply.error)
  {
    match reply
    case Err(e) => Err(e)
    case Ok(None) => Err(KeyNotFound)
    case Ok(Some(v)) => Ok(v)
  }

  /** Exists: the number of matching keys becomes "at least one". */
  function ExistsReply(reply: Result<int>): (r: Result<bool>)
    ensures r.Err? <==> reply.Err?
    ensures r.Err? ==> r.error == reply.error
    ensures r.Ok? ==> (r.value <==> reply.value > 0)
  {
    match reply
    case Err(e) => Err(e)
    case Ok(n) => Ok(n > 0)
  }

  /** TTL: -1 stays the "no expiration" sentinel, -2 becomes KeyNotFound,
      any other reply is the remaining time. */
  function TtlReply(reply: Result<Duration>): (r: Result<Duration>)
    ensures r.Err? <==> reply.Err? || reply == Ok(-2)
    ensures reply.Err? ==> r == reply
    ensures reply == Ok(-2) ==> r == Err(KeyNotFound)
    ensures r.Ok? ==> r == reply
  {
    match reply
    case Err(e) => Err(e)
    case Ok(d) =>
      if d == -1 then Ok(NoExpiry)
      else if d == -2 then Err(KeyNotFound)
      else Ok(d)
  }

  /** Expire: the server's "not applied" answer becomes KeyNotFound. */
  function ExpireReply(reply: Result<bool>): (s: Status)
    ensures s == Nil <==> reply == Ok(true)
    ensures reply == Ok(false) ==> s == Fail(KeyNotFound)
    ensures reply.Err? ==> s == Fail(reply.error)
  {
    match reply
    case Err(e) => Fail(e)
    case Ok(applied) => if applied then Nil else Fail(KeyNotFound)
  }

  // ---------------------------------------------------------------------
  // An idealised server holding the entries of a memory store
  // ---------------------------------------------------------------------

  /** The replies of a server that keeps exactly the entries of `store`
      and measures time in the model's exact unit. A real Redis server
      answers TTL in whole (rounded) seconds, so its TTL reply can differ
      from `deadline - now` by up to a second. */
  function ServerGet(store: Memory.MemoryCache, key: Key, now: Time): Result<Option<Value>>
  {
    if Memory.Holds(store, key, now) then Ok(Some(store.data[key].value)) else Ok(None)
  }

  function ServerExists(store: Memory.MemoryCache, key: Key, now: Time): Result<int>
  {
    Ok(if Memory.Holds(store, key, now) then 1 else 0)
  }

  /** The TTL reply: -2 for a missing or expired key, -1 for a key without
      expiry, the time left otherwise. */
  function ServerTtl(store: Memory.MemoryCache, key: Key, now: Time): Result<Duration>
  {
    if !Memory.Holds(store, key, now) then Ok(-2)
    else if store.data[key].expiration.Never? then Ok(-1)
    else Ok(store.data[key].expiration.deadline - now)
  }

  /** EXPIRE applies only to a key the server still holds. */
  function ServerExpire(store: Memory.MemoryCache, key: Key, now: Time): Result<bool>
  {
    Ok(Memory.Holds(store, key, now))
  }

  /** Against such a server, the adapter's Get, Exists and TTL answer
      exactly what the memory backend answers. */
  lemma ReadsMatchMemory(store: Memory.MemoryCache, key: Key, now: Time)
    ensures GetReply(ServerGet(store, key, now)) == Memory.Get(store, key, now)
    ensures ExistsReply(ServerExists(store, key, now)) == Ok(Memory.Exists(store, key, now))
    ensures TtlReply(ServerTtl(store, key, now)) == Memory.TTL(store, key, now)
  {
  }

  /** Likewise for Expire, on a key that is live or absent (the server has
      already dropped an expired key the memory map may still hold). */
  lemma ExpireReplyMatchesMemory(store: Memory.MemoryCache, key: Key, ttl: Duration, now: Time)
    requires key in store.data ==> Memory.Holds(store, key, now)
    ensures ExpireReply(ServerExpire(store, key, now)) == Memory.Expire(store, key, ttl, now).status
  {
  }
}
